=== FILE: README.md ===
# AppEnumGen macros, modelled in Dafny

This project models the two attached extension macros of the SwiftMacros
package:

- `@AppEnumGen` (`AppEnumGenMacro`) returns one `extension <Enum>: AppEnum`. It holds
  `typeDisplayRepresentation`, the enum's name as a string, and
  `caseDisplayRepresentations`, a dictionary from every case to its own spelling.
- `@AppEnumGenFixIt` (`AppEnumGenFixItMacro`) returns no extension. Instead it
  reports a `replaceEnum` warning. The warning's fix-it replaces the whole enum
  declaration by an edited copy:
  - the first attribute is commented out (`@` becomes `//@`);
  - `AppEnum` is appended to an existing inheritance clause that has no
    identifier-type entry named `AppEnum`;
  - every member that is not a case declaration is dropped;
  - the two generated members are appended, each after two newlines.

Both macros report `notAnEnum` (an error) on any declaration that is not an enum.

Modules, one per file:

- `wrappers.dfy`: `Option` for Swift optionals, and `Result` for steps that can end in a diagnostic.
- `syntax.dfy`: the closed syntax the macros read and write. It covers attributes,
  inheritance entries (identifier type or other type, with or without a trailing
  comma), case elements, member items with leading trivia, and declarations.
  Nodes are immutable values, so the fix-it's copy can never alias the original.
- `text.dfy`: `Join`, the model of `joined(separator:)`.
- `diagnostics.dfy`: the diagnostic catalogue (severity, raw value, message ID), plus
  the diagnostic, fix-it and change records.
- `synthesis.dfy`: case extraction, the dictionary text (`.n: "n"`), and the two
  generated members. It also holds a parser for the dictionary text, which gives
  the text's contents a partner definition to be checked against.
- `fixit_edit.dfy`: the fix-it's edits (attributes, inheritance clause, members)
  and the edited copy.
- `macros.dfy`: the two expansions, as functions from the triggering attribute
  and the attached declaration to the returned extensions and reported diagnostics.
- `scenarios.dfy`: the repository's expansions of `enum A: String { case a, b; case c }`.

Some behaviours of the code are modelled as written, although its own
comments suggest more:

- The comment at `SwiftMacrosMacro.swift:107` speaks of replacing the macro's
  attribute. When the first element of the attribute list is an attribute (not an
  `#if` block), lines 108-113 comment out that FIRST attribute, whichever it is.
  All other attributes, the triggering one included, then disappear from the copy.
  When the first element is an `#if` block, the list is left unchanged and the
  trigger survives uncommented.
- The comment at line 131 speaks of adding the conformance, but the condition at
  line 117 needs an existing clause. Without one, `AppEnum` is NOT added to the copy.
- The comment at line 124 ("remove space and add comma") says an entry without a
  comma gains one. Lines 125-126 do this only for identifier types.
- Line 117 recognises only an identifier-type entry named `AppEnum`. The
  qualified `AppIntents.AppEnum` is not recognised, and a second `AppEnum` is
  appended after it.

The last two are listed under Findings. Each has a corrected rewrite proved
beside the as-written one. The expansions follow the code.

## Model

| member | source | states |
|---|---|---|
| Diagnostics.SeverityOf | Sources/SwiftMacrosMacros/SwiftMacrosMacro.swift:179-186 | `replaceEnum` is the only warning; `notAnEnum` and `updatedInheritancesIsNil` are errors |
| Diagnostics.FromRawValue | Sources/SwiftMacrosMacros/SwiftMacrosMacro.swift:173-177 | a string is accepted as a catalogue case only if it is that case's raw value |
| Diagnostics.RawValueRoundTrip | Sources/SwiftMacrosMacros/SwiftMacrosMacro.swift:173-177 | `RawValue`, the case's Swift spelling, is inverted by `FromRawValue`: every catalogue case is recovered from its raw value |
| Diagnostics.DiagnosticId | Sources/SwiftMacrosMacros/SwiftMacrosMacro.swift:196-198 | a message ID is in domain `de.amaider.SwiftMacros`, and its id reads back as the case it was made from |
| Diagnostics.DiagnosticIdInjective | Sources/SwiftMacrosMacros/SwiftMacrosMacro.swift:196-198 | distinct diagnostics never share a message ID |
| Text.JoinLength | Sources/SwiftMacrosMacros/SwiftMacrosMacro.swift:38-39 | `Join`, the model of `joined(separator:)`, adds exactly one separator between neighbouring parts and nothing else |
| Text.JoinSnoc | Sources/SwiftMacrosMacros/SwiftMacrosMacro.swift:38-39 | joining one more part appends the separator and that part |
| Synthesis.CaseDeclsAppend | Sources/SwiftMacrosMacros/SwiftMacrosMacro.swift:29 | case extraction over two member lists is the extraction of each, in order |
| Synthesis.NoCasesNoText | Sources/SwiftMacrosMacros/SwiftMacrosMacro.swift:33-39 | an enum with no case declaration gets an empty dictionary literal |
| Synthesis.ParseEntryText | Sources/SwiftMacrosMacros/SwiftMacrosMacro.swift:35-37 | the entry text `EntryText(n)` made for case `n` reads back as key `n` with label text `n`, leaving what follows it |
| Synthesis.AsWrittenLabelCarriesTrivia | Sources/SwiftMacrosMacros/SwiftMacrosMacro.swift:34-38 | as written, a case name token followed by trivia reads back with the trivia in its label, so the label no longer spells the case |
| Synthesis.AsWrittenSpacedCaseExample | Sources/SwiftMacrosMacros/SwiftMacrosMacro.swift:34-38 | as written, `case small = "S"` gives the entry `.small : "small "` |
| Synthesis.LineReadsBack | Sources/SwiftMacrosMacros/SwiftMacrosMacro.swift:34-38 | the line `LineText` builds for one case declaration reads back as exactly its element names, in order, each as key and as label |
| Synthesis.MappingRoundTrip | Sources/SwiftMacrosMacros/SwiftMacrosMacro.swift:33-39 | the dictionary text `DictLines` reads back as exactly the case names, in source order. Entries of one declaration share a line (`", "`); declarations are separated by `",\n"`. Each entry maps `.n` to `"n"` |
| Synthesis.CaseMappingReadsBack | Sources/SwiftMacrosMacros/SwiftMacrosMacro.swift:41-47 | the generated `caseDisplayRepresentations` member reads back as exactly the enum's case names. They come in source order, grouped by case declaration, each mapped to its own spelling |
| Macros.AppEnumGen | Sources/SwiftMacrosMacros/SwiftMacrosMacro.swift:10-60 | on an enum: exactly one extension, with no diagnostic. The extension is on the enum's name and conforms to `AppEnum`. Its members are the type label `TypeLabel`, which carries the enum's trimmed name, then the case mapping. Otherwise: no extension and one `notAnEnum` error at the attribute |
| Macros.AppEnumGenMapping | Sources/SwiftMacrosMacros/SwiftMacrosMacro.swift:27-47 | the extension's mapping reads back as the enum's cases, each mapped to its own name, in source order |
| Macros.AppEnumGenIgnoresHeader | Sources/SwiftMacrosMacros/SwiftMacrosMacro.swift:17-59 | the extension depends only on the enum's name and members, so `enum A: String, AppEnum` gets the same extension as `enum A: String` |
| Macros.AppEnumGenFixIt | Sources/SwiftMacrosMacros/SwiftMacrosMacro.swift:65-161 | never returns an extension. It reports exactly one diagnostic at the attribute, never `updatedInheritancesIsNil`. It is a warning with a fix-it exactly when the declaration is an enum. That fix-it, with ID `AmaiderMacroFixIt`/`replaceEnum`, replaces the whole original declaration by the edited copy |
| Macros.SuggestedReplacement | Sources/SwiftMacrosMacros/SwiftMacrosMacro.swift:154-156 | the suggested replacement is an enum with the original name |
| Macros.FixItMembersMatchExtension | Sources/SwiftMacrosMacros/SwiftMacrosMacro.swift:143-151 | the copy's members are the original case declarations, in original order, then the same two members `@AppEnumGen` generates |
| Macros.FixItIdempotent | Sources/SwiftMacrosMacros/SwiftMacrosMacro.swift:104-151 | expanding the fix-it again on the suggested node, as it is, suggests the same declaration |
| Macros.UncommentedIdempotent | Sources/SwiftMacros/SwiftMacros.swift:29 | the documented refresh cycle: uncommenting the attribute of an accepted suggestion (`//@` back to `@`) and expanding again suggests that same declaration. The macro only expands again when its attribute was the first one; see the next row |
| Macros.RefreshRestoresTriggerOnlyWhenFirst | Sources/SwiftMacrosMacros/SwiftMacrosMacro.swift:108-113 | uncommenting an accepted suggestion restores the first original attribute alone. The live trigger is back exactly when that first attribute was the trigger; otherwise the refresh cycle stops |
| Macros.NonEnumRejected | Sources/SwiftMacrosMacros/SwiftMacrosMacro.swift:66-70 | on a non-enum both macros return nothing and report the same single `notAnEnum` diagnostic, with no fix-it |
| FixItEdit.CommentOutAttributes | Sources/SwiftMacrosMacros/SwiftMacrosMacro.swift:107-114 | if the first attribute-list element is an attribute, the list becomes that one attribute with `//@` for its at-sign, name and arguments kept. Otherwise the list is unchanged |
| FixItEdit.CommentOutIdempotent | Sources/SwiftMacrosMacros/SwiftMacrosMacro.swift:107-114 | commenting out a commented-out list changes nothing |
| FixItEdit.TriggerDroppedUnlessFirst | Sources/SwiftMacrosMacros/SwiftMacrosMacro.swift:108-113 | when the first element of the list is an attribute (not an `#if` block) other than the trigger, a triggering attribute that is not first does not survive in the copy |
| FixItEdit.AppEnumCountPositive | Sources/SwiftMacrosMacros/SwiftMacrosMacro.swift:117 | `HasAppEnum`, the `contains(where:)` test of line 117, holds exactly when the independent count of identifier entries named `AppEnum` is positive |
| FixItEdit.NormalizeEntry | Sources/SwiftMacrosMacros/SwiftMacrosMacro.swift:119-129 | an entry keeps its type. It ends with a comma exactly when it already had one or is an identifier type |
| FixItEdit.NormalizeAll | Sources/SwiftMacrosMacros/SwiftMacrosMacro.swift:119-129 | the clause is normalised entry by entry, in order, same length |
| FixItEdit.RewriteInheritance | Sources/SwiftMacrosMacros/SwiftMacrosMacro.swift:116-141 | the rewrite never fails, so the `updatedInheritancesIsNil` branch is unreachable. With no clause, or a clause already naming `AppEnum`, the clause is unchanged. Otherwise the result is the normalised entries followed by one `AppEnum` entry |
| FixItEdit.RewriteAppEnumCount | Sources/SwiftMacrosMacros/SwiftMacrosMacro.swift:117-133 | the rewrite never creates or removes a clause. A clause with no identifier entry named `AppEnum` ends up with exactly one such entry; a clause that has one keeps its count |
| FixItEdit.AsWrittenLeavesEntryUnseparated | Sources/SwiftMacrosMacros/SwiftMacrosMacro.swift:121-128 | as written, a comma-less non-identifier entry leaves the rewritten clause badly separated |
| FixItEdit.AsWrittenMemberTypeExample | Sources/SwiftMacrosMacros/SwiftMacrosMacro.swift:121-133 | as written, `Swift.String` becomes `Swift.String AppEnum` |
| FixItEdit.AsWrittenQualifiedAppEnumDuplicated | Sources/SwiftMacrosMacros/SwiftMacrosMacro.swift:117-133 | as written, a clause conforming only through `AppIntents.AppEnum` keeps that entry and gains a second `AppEnum` conformance at its end |
| FixItEdit.AsWrittenQualifiedExample | Sources/SwiftMacrosMacros/SwiftMacrosMacro.swift:117-133 | as written, `AppIntents.AppEnum` becomes `AppIntents.AppEnum AppEnum` |
| FixItEdit.FixedRewriteConformsOnce | Sources/SwiftMacrosMacros/SwiftMacrosMacro.swift:117-133 | with the correction, a clause that conforms under neither spelling ends with exactly one `AppEnum` conformance, the appended last entry |
| FixItEdit.NormalizeEntryFixed | Sources/SwiftMacrosMacros/SwiftMacrosMacro.swift:119-129 | corrected normalisation: every entry keeps its type and ends with a comma |
| FixItEdit.RewriteInheritanceFixed | Sources/SwiftMacrosMacros/SwiftMacrosMacro.swift:116-141 | corrected rewrite: a clause that already conforms, under the bare or the qualified name, is left alone. Otherwise the original types, in order, then `AppEnum` |
| FixItEdit.FixedRewriteIsSeparated | Sources/SwiftMacrosMacros/SwiftMacrosMacro.swift:119-133 | with the correction, every entry but the last ends with a comma and `AppEnum` ends the clause |
| FixItEdit.KeepCases | Sources/SwiftMacrosMacros/SwiftMacrosMacro.swift:148 | the filter keeps only case declarations and never adds a member |
| FixItEdit.KeepCasesCounts | Sources/SwiftMacrosMacros/SwiftMacrosMacro.swift:148 | every case declaration is kept as often as it occurs in the original, and no other member is kept |
| FixItEdit.KeepCasesIsSubsequence | Sources/SwiftMacrosMacros/SwiftMacrosMacro.swift:148 | the kept members keep their original order |
| FixItEdit.CaseDeclsAreKeptElements | Sources/SwiftMacrosMacros/SwiftMacrosMacro.swift:29 | `CaseDecls`, the `compactMap` of line 29, is the filter of case members followed by taking each one's elements: one element list per case member, in member order |
| FixItEdit.KeepCasesMatchesCaseDecls | Sources/SwiftMacrosMacros/SwiftMacrosMacro.swift:148 | the kept members hold exactly the case declarations the mapping was built from |
| FixItEdit.EditedMembers | Sources/SwiftMacrosMacros/SwiftMacrosMacro.swift:143-151 | the copy's members are the kept case declarations, then the two `GeneratedMembers`: the type label, then the case mapping, each led by two newlines |
| FixItEdit.EditedMembersKeepCases | Sources/SwiftMacrosMacros/SwiftMacrosMacro.swift:147-151 | the member edit keeps every case declaration, in order |
| FixItEdit.EditedMembersIdempotent | Sources/SwiftMacrosMacros/SwiftMacrosMacro.swift:143-151 | editing the edited member list again yields the same list: stale generated members are dropped and regenerated identically |
| FixItEdit.EditedCopy | Sources/SwiftMacrosMacros/SwiftMacrosMacro.swift:104-151 | the copy keeps the enum's name and modifiers. Its attributes are commented out, its clause is rewritten, its members are edited |
| FixItEdit.EditedCopyConformance | Sources/SwiftMacrosMacros/SwiftMacrosMacro.swift:116-141 | the copy has a clause exactly when the original had one, and any such clause has an identifier entry named `AppEnum` |
| FixItEdit.EditedCopyIdempotent | Sources/SwiftMacrosMacros/SwiftMacrosMacro.swift:104-151 | editing the copy again yields the same copy |
| Scenarios.AppEnumGenOnA | Tests/SwiftMacrosTests/SwiftMacrosTests.swift:44-111 | `enum A: String { case a, b; case c }`, with or without `AppEnum` in its clause, expands to `extension A: AppEnum`. The label is "A"; the mapping text is `.a: "a", .b: "b",` then `.c: "c"` on the next line |
| Scenarios.FixItOnA | Sources/SwiftMacrosMacros/SwiftMacrosMacro.swift:104-151 | the fix-it on `enum A: String, AppEnu` with stale generated members suggests `//@AppEnumGenFixIt enum A: String, AppEnu, AppEnum`. It keeps the two case lines and regenerates the two members |

## Left out

- Parsing and template construction of syntax nodes (`VariableDeclSyntax("…")`,
  `ExtensionDeclSyntax("…")`) belong to the SwiftSyntax library. A generated member
  is an abstract value: the enum name for the type label, and the key type and
  dictionary text for the case mapping. The surrounding template text is not modelled.
- The `throws` of those template constructions is not modelled. The templates are
  fixed, so the model treats their construction as always succeeding.
- Trivia and whitespace are left out, except for two things: the two-newline
  leading trivia of the appended members, and the separators of the dictionary
  text. This includes the single spaces around the appended `AppEnum` entry and
  the trivia the rebuilt identifier entries lose.
- Case names are modelled as the identifier text of each element, as if trimmed.
  The expansions do not carry the name token's trivia into the interpolated text.
  That as-written behaviour is shown on single entries under Findings.
- Identifier types carry only their name; generic argument clauses are not
  modelled. Line 126 rebuilds an identifier entry from its name alone, so an entry
  such as `Box<Int>` would lose its arguments in the copy (`Box,`). The model
  cannot show that loss.
- The `providingExtensionsOf` and `conformingTo` parameters are never read by the
  source, and so are not modelled.
- The plugin registration (`SwiftMacrosPlugin`, lines 164-170) is host plumbing.
- `context.diagnose` is modelled as the returned sequence of diagnostics. The
  host's application of a fix-it change is outside the macros.
- The human-readable messages of the diagnostics (lines 188-194) are not modelled.
  The same goes for the fix-it's "Update AppEnum" message. Severity and IDs are modelled.
- `Sources/SwiftMacros/SwiftMacros.swift` holds only macro declarations and their
  documentation. The refresh cycle its line 29 describes is `Macros.UncommentedIdempotent`.
  `Sources/SwiftMacrosClient/main.swift` is demonstration code. Neither has logic to model.
- Synthesis.MappingRoundTrip: the round trip is stated for case names without `:`
  or `"`, and for case declarations with at least one element. Every case
  declaration has an element. Every case name has neither character, except a raw
  identifier (Swift 6.2) such as `` `a:b` `` or `` `say "hi"` ``. Its text would be
  interpolated as it is, and the key would read back cut short (`` `a ``).
- Macros.AppEnumGenMapping: carries the same two conditions as the round trip it rests on.
- Synthesis.CaseMappingReadsBack: carries the same two conditions as the round trip it rests on.
- Synthesis.ParseEntryText: stated for a case name without `:` or `"`, the first of
  the round trip's conditions, for the same reason.
- Synthesis.LineReadsBack: carries both of the round trip's conditions for its one
  case declaration.

## Findings

| source | as written | input that shows it | evidently intended | confidence | as-written member | corrected member |
|---|---|---|---|---|---|---|
| Sources/SwiftMacrosMacros/SwiftMacrosMacro.swift:121-128 | an entry without a trailing comma gains one only when its type is an `IdentifierTypeSyntax`; any other entry is returned unchanged | `@AppEnumGenFixIt enum A: Swift.String { case a }` gives the clause `Swift.String AppEnum` | every entry before the appended `AppEnum` ends with a comma (`Swift.String, AppEnum`) | medium, not executed | FixItEdit.AsWrittenLeavesEntryUnseparated | FixItEdit.FixedRewriteIsSeparated |
| Sources/SwiftMacrosMacros/SwiftMacrosMacro.swift:117 | only an `IdentifierTypeSyntax` named `AppEnum` counts as an existing conformance | `@AppEnumGenFixIt enum A: AppIntents.AppEnum { case a }` gives the clause `AppIntents.AppEnum AppEnum`, conforming twice | a clause that conforms under the qualified name is left alone | low, not executed | FixItEdit.AsWrittenQualifiedAppEnumDuplicated | FixItEdit.FixedRewriteConformsOnce |
| Sources/SwiftMacrosMacros/SwiftMacrosMacro.swift:34-38 | the entry interpolates the name token, which prints with its trailing trivia | `case small = "S"` gives `.small : "small "`. A trailing `// note` after a line's last case would comment out the rest of that dictionary line | the key and label spell the case name exactly (`element.name.trimmed`) | medium, not executed | Synthesis.AsWrittenLabelCarriesTrivia | Synthesis.ParseEntryText |

The expansions use the as-written rewrite, because they model the code's
behaviour. `RewriteInheritanceFixed` is the corrected rewrite, with both
corrections, stated beside it. For the trivia row, the expansions use the
corrected entry text, because trivia is not modelled elsewhere. Its read-back
is `ParseEntryText`.

=== FILE: diagnostics.dfy ===
/** The fixed catalogue of diagnostics both macros emit, and the diagnostic and
    fix-it records they hand to the host. */
module Diagnostics {
  import opened Wrappers
  import opened Syntax

  datatype Severity = Error | Warning | Note | Remark

  /** The catalogue; each case's raw value is its identifier. */
  datatype DiagKind = NotAnEnum | UpdatedInheritancesIsNil | ReplaceEnum

  /** A message identifier: a domain plus an id, stable across releases. */
  datatype MessageId = MessageId(domain: string, id: string)

  const DiagnosticDomain: string := "de.amaider.SwiftMacros"

  /** The identifier of the fix-it offered with `ReplaceEnum`. */
  const FixItId: MessageId := MessageId("AmaiderMacroFixIt", "replaceEnum")

  /** Only the replacement suggestion is a warning; both failures are errors. */
  function SeverityOf(k: DiagKind): (s: Severity)
    ensures s == Warning <==> k == ReplaceEnum
    ensures s == Error <==> k != ReplaceEnum
  {
    match k
    case NotAnEnum => Error
    case UpdatedInheritancesIsNil => Error
    case ReplaceEnum => Warning
  }

  /** The raw value of a catalogue case (its Swift spelling). */
  function RawValue(k: DiagKind): string
  {
    match k
    case NotAnEnum => "notAnEnum"
    case UpdatedInheritancesIsNil => "updatedInheritancesIsNil"
    case ReplaceEnum => "replaceEnum"
  }

  /** Swift's failable `init?(rawValue:)` for the catalogue. */
  function FromRawValue(s: string): (r: Option<DiagKind>)
    ensures r.Some? ==> RawValue(r.value) == s
  {
    if s == "notAnEnum" then Some(NotAnEnum)
    else if s == "updatedInheritancesIsNil" then Some(UpdatedInheritancesIsNil)
    else if s == "replaceEnum" then Some(ReplaceEnum)
    else None
  }

  /** Every case is recovered from its raw value. */
  lemma RawValueRoundTrip(k: DiagKind)
    ensures FromRawValue(RawValue(k)) == Some(k)
  {
  }

  /** The identifier under which the host reports a diagnostic. */
  function DiagnosticId(k: DiagKind): (m: MessageId)
    ensures m.domain == DiagnosticDomain
    ensures FromRawValue(m.id) == Some(k)
  {
    RawValueRoundTrip(k);
    MessageId(DiagnosticDomain, RawValue(k))
  }

  /** Distinct catalogue cases never share an identifier. */
  lemma DiagnosticIdInjective(k1: DiagKind, k2: DiagKind)
    requires DiagnosticId(k1) == DiagnosticId(k2)
    ensures k1 == k2
  {
  }

  /** A suggested edit: replace one whole declaration by another. */
  datatype Change = Replace(oldNode: Decl, newNode: Decl)

  datatype FixIt = FixIt(id: MessageId, changes: seq<Change>)

  /** A diagnostic reported at the attribute that triggered the macro. */
  datatype Diagnostic = Diagnostic(node: Attribute, message: DiagKind, fixIt: Option<FixIt>)
}

=== FILE: fixit_edit.dfy ===
/** The structural edits the fix-it macro makes on its copy of the enum:
    commenting out the first attribute, adding `AppEnum` to the inheritance
    clause, and replacing every non-case member by the two generated ones. */
module FixItEdit {
  import opened Wrappers
  import opened Syntax
  import opened Diagnostics
  import opened Synthesis

  /** The protocol the generated members conform the enum to. */
  const AppEnum: string := "AppEnum"

  /** The at-sign text that turns an attribute into a line comment. */
  const CommentedAtSign: string := "//@"

  // ---------------------------------------------------------------------------
  // Attributes

  /** When the first element of the list is an attribute, the list becomes that
      attribute alone with its `@` turned into `//@`; otherwise it is unchanged.
      Every later attribute, the triggering one included, is dropped. */
  function CommentOutAttributes(attrs: seq<AttributeElement>): (r: seq<AttributeElement>)
    ensures |attrs| > 0 && attrs[0].Attr? ==>
      |r| == 1 && r[0].Attr? && r[0].attribute.atSign == CommentedAtSign
      && r[0].attribute.name == attrs[0].attribute.name
      && r[0].attribute.arguments == attrs[0].attribute.arguments
    ensures !(|attrs| > 0 && attrs[0].Attr?) ==> r == attrs
  {
    if |attrs| > 0 && attrs[0].Attr? then [Attr(attrs[0].attribute.(atSign := CommentedAtSign))]
    else attrs
  }

  /** The at-sign of a live attribute. */
  const AtSign: string := "@"

  /** What the user does to refresh a replaced enum: the first attribute's `//@`
      becomes `@` again, so the fix-it macro expands once more. */
  function Uncomment(d: Decl): (r: Decl)
    requires d.EnumDecl?
    ensures r.EnumDecl? && r.name == d.name && r.modifiers == d.modifiers
    ensures r.inheritance == d.inheritance && r.members == d.members
    ensures |d.attributes| > 0 && d.attributes[0].Attr? ==>
      && |r.attributes| == |d.attributes|
      && r.attributes[0] == Attr(d.attributes[0].attribute.(atSign := AtSign))
      && r.attributes[1..] == d.attributes[1..]
    ensures !(|d.attributes| > 0 && d.attributes[0].Attr?) ==> r.attributes == d.attributes
  {
    if |d.attributes| > 0 && d.attributes[0].Attr? then
      d.(attributes := [Attr(d.attributes[0].attribute.(atSign := AtSign))] + d.attributes[1..])
    else d
  }

  /** Commenting out an already commented-out list changes nothing. */
  lemma CommentOutIdempotent(attrs: seq<AttributeElement>)
    ensures CommentOutAttributes(CommentOutAttributes(attrs)) == CommentOutAttributes(attrs)
  {
  }

  /** The triggering attribute disappears from the copy when it is not the first
      attribute: only the first one survives, commented out. */
  lemma TriggerDroppedUnlessFirst(attrs: seq<AttributeElement>, node: Attribute, k: nat)
    requires 0 < k < |attrs| && attrs[k] == Attr(node)
    requires attrs[0].Attr? && attrs[0].attribute.name != node.name
    ensures Attr(node) !in CommentOutAttributes(attrs)
  {
  }

  // ---------------------------------------------------------------------------
  // Inheritance clause

  /** An identifier-type entry naming `AppEnum`. */
  predicate IsAppEnumEntry(e: InheritedType)
  {
    e.ty.IdentifierType? && e.ty.name == AppEnum
  }

  /** The clause already lists `AppEnum` as an identifier type. */
  predicate HasAppEnum(entries: seq<InheritedType>)
  {
    exists i :: 0 <= i < |entries| && IsAppEnumEntry(entries[i])
  }

  /** How many entries name `AppEnum`. */
  function AppEnumCount(entries: seq<InheritedType>): nat
  {
    if |entries| == 0 then 0
    else (if IsAppEnumEntry(entries[0]) then 1 else 0) + AppEnumCount(entries[1..])
  }

  lemma {:induction false} AppEnumCountPositive(entries: seq<InheritedType>)
    ensures AppEnumCount(entries) > 0 <==> HasAppEnum(entries)
    decreases |entries|
  {
    if |entries| > 0 {
      AppEnumCountPositive(entries[1..]);
      if HasAppEnum(entries) && !IsAppEnumEntry(entries[0]) {
        var i :| 0 <= i < |entries| && IsAppEnumEntry(entries[i]);
        assert entries[1..][i - 1] == entries[i];
      }
      if HasAppEnum(entries[1..]) {
        var i :| 0 <= i < |entries[1..]| && IsAppEnumEntry(entries[1..][i]);
        assert entries[i + 1] == entries[1..][i];
      }
    }
  }

  lemma {:induction false} AppEnumCountAppend(a: seq<InheritedType>, b: seq<InheritedType>)
    ensures AppEnumCount(a + b) == AppEnumCount(a) + AppEnumCount(b)
    decreases |a|
  {
    if |a| == 0 {
      assert a + b == b;
    } else {
      assert (a + b)[1..] == a[1..] + b;
      AppEnumCountAppend(a[1..], b);
    }
  }

  /** The entry appended for the conformance (spacing is not modelled). */
  const AppEnumEntry: InheritedType := InheritedType(IdentifierType(AppEnum), false)

  /** Per-entry normalisation as written: an entry with a comma is kept; an
      identifier entry without one is rebuilt with a comma; any other entry is
      kept as it is, still without a comma. */
  function NormalizeEntry(e: InheritedType): (r: InheritedType)
    ensures r.ty == e.ty
    ensures r.hasTrailingComma <==> e.hasTrailingComma || e.ty.IdentifierType?
  {
    if e.hasTrailingComma then e
    else match e.ty
      case IdentifierType(name) => InheritedType(IdentifierType(name), true)
      case OtherType(_) => e
  }

  /** `NormalizeEntry` applied to every entry, in order. */
  function NormalizeAll(entries: seq<InheritedType>): (r: seq<InheritedType>)
    ensures |r| == |entries|
    ensures forall i :: 0 <= i < |r| ==> r[i] == NormalizeEntry(entries[i])
  {
    if |entries| == 0 then [] else [NormalizeEntry(entries[0])] + NormalizeAll(entries[1..])
  }

  /** The inheritance rewrite.  It applies only when a clause exists and lacks
      `AppEnum`; the optional chain that could yield `updatedInheritancesIsNil`
      is kept, and the contract shows it never does. */
  function RewriteInheritance(clause: Option<seq<InheritedType>>): (r: Result<Option<seq<InheritedType>>, DiagKind>)
    ensures r.Success?
    ensures clause.None? || HasAppEnum(clause.value) ==> r.value == clause
    ensures clause.Some? && !HasAppEnum(clause.value) ==>
      var original := clause.value;
      && r.value.Some?
      && |r.value.value| == |original| + 1
      && r.value.value[|original|] == AppEnumEntry
      && forall i :: 0 <= i < |original| ==> r.value.value[i] == NormalizeEntry(original[i])
  {
    if clause.Some? && !HasAppEnum(clause.value) then
      var mapped := match clause case None => None case Some(es) => Some(NormalizeAll(es));
      var updated := match mapped case None => None case Some(us) => Some(us + [AppEnumEntry]);
      match updated
      case None => Failure(UpdatedInheritancesIsNil)
      case Some(us) => Success(Some(us))
    else
      Success(clause)
  }

  /** An identifier-type `AppEnum` entry is never duplicated: a clause that lacks
      one gains exactly one, a clause that has one keeps its count, and no clause
      stays no clause. */
  lemma RewriteAppEnumCount(clause: Option<seq<InheritedType>>)
    ensures RewriteInheritance(clause).value.Some? <==> clause.Some?
    ensures clause.Some? ==>
      AppEnumCount(RewriteInheritance(clause).value.value) ==
        if HasAppEnum(clause.value) then AppEnumCount(clause.value) else 1
  {
    if clause.Some? && !HasAppEnum(clause.value) {
      var original := clause.value;
      var normalized := NormalizeAll(original);
      assert RewriteInheritance(clause).value.value == normalized + [AppEnumEntry];
      AppEnumCountAppend(normalized, [AppEnumEntry]);
      AppEnumCountPositive(original);
      AppEnumCountPositive(normalized);
      assert !HasAppEnum(normalized) by {
        forall i | 0 <= i < |normalized| ensures !IsAppEnumEntry(normalized[i]) {
          assert normalized[i].ty == original[i].ty;
        }
      }
      assert AppEnumCount([AppEnumEntry]) == 1;
    }
  }

  /** Every entry except the last carries a comma and the last does not. */
  predicate Separated(entries: seq<InheritedType>)
  {
    forall i :: 0 <= i < |entries| ==> (entries[i].hasTrailingComma <==> i < |entries| - 1)
  }

  /** As written, a non-identifier entry without a comma (`Swift.String`) keeps
      lacking one, so the rewritten clause reads `Swift.String AppEnum`. */
  lemma AsWrittenLeavesEntryUnseparated(clause: seq<InheritedType>, k: nat)
    requires !HasAppEnum(clause)
    requires k < |clause| && clause[k].ty.OtherType? && !clause[k].hasTrailingComma
    ensures !Separated(RewriteInheritance(Some(clause)).value.value)
  {
    var r := RewriteInheritance(Some(clause)).value.value;
    assert r[k] == NormalizeEntry(clause[k]);
    assert !r[k].hasTrailingComma && k < |r| - 1;
  }

  /** The concrete case: `enum A: Swift.String` becomes `enum A: Swift.String AppEnum`. */
  lemma AsWrittenMemberTypeExample()
    ensures RewriteInheritance(Some([InheritedType(OtherType("Swift.String"), false)])) ==
      Success(Some([InheritedType(OtherType("Swift.String"), false), AppEnumEntry]))
  {
    var clause := [InheritedType(OtherType("Swift.String"), false)];
    assert !HasAppEnum(clause);
    var r := RewriteInheritance(Some(clause)).value.value;
    assert r[0] == NormalizeEntry(clause[0]) == clause[0];
    assert r == [clause[0], AppEnumEntry];
  }

  /** The protocol's module-qualified spelling: a member type, not an identifier type. */
  const QualifiedAppEnum: string := "AppIntents.AppEnum"

  /** An entry that conforms the enum to `AppEnum`, under its bare or its qualified name. */
  predicate ConformsToAppEnum(e: InheritedType)
  {
    IsAppEnumEntry(e) || e.ty == OtherType(QualifiedAppEnum)
  }

  /** The clause already conforms to `AppEnum`, under either spelling. */
  predicate DeclaresAppEnum(entries: seq<InheritedType>)
  {
    exists i :: 0 <= i < |entries| && ConformsToAppEnum(entries[i])
  }

  /** As written, a clause conforming through the qualified spelling only is not
      recognised, and a second `AppEnum` conformance is appended after it. */
  lemma AsWrittenQualifiedAppEnumDuplicated(clause: seq<InheritedType>, k: nat)
    requires !HasAppEnum(clause)
    requires k < |clause| && ConformsToAppEnum(clause[k])
    ensures var r := RewriteInheritance(Some(clause)).value.value;
      k < |r| - 1 && ConformsToAppEnum(r[k]) && ConformsToAppEnum(r[|r| - 1])
  {
    var r := RewriteInheritance(Some(clause)).value.value;
    assert r[k] == NormalizeEntry(clause[k]);
  }

  /** The concrete case: `enum A: AppIntents.AppEnum` becomes
      `enum A: AppIntents.AppEnum AppEnum`. */
  lemma AsWrittenQualifiedExample()
    ensures RewriteInheritance(Some([InheritedType(OtherType(QualifiedAppEnum), false)])) ==
      Success(Some([InheritedType(OtherType(QualifiedAppEnum), false), AppEnumEntry]))
  {
    var clause := [InheritedType(OtherType(QualifiedAppEnum), false)];
    assert !HasAppEnum(clause);
    var r := RewriteInheritance(Some(clause)).value.value;
    assert r[0] == NormalizeEntry(clause[0]) == clause[0];
    assert r == [clause[0], AppEnumEntry];
  }

  /** Corrected normalisation: every entry without a comma gains one, whatever its type. */
  function NormalizeEntryFixed(e: InheritedType): (r: InheritedType)
    ensures r.ty == e.ty && r.hasTrailingComma
  {
    e.(hasTrailingComma := true)
  }

  /** The inheritance rewrite with both corrections: either spelling of `AppEnum`
      counts as already conforming, and every kept entry is comma-terminated. */
  function RewriteInheritanceFixed(clause: Option<seq<InheritedType>>): (r: Option<seq<InheritedType>>)
    ensures clause.None? || DeclaresAppEnum(clause.value) ==> r == clause
    ensures clause.Some? && !DeclaresAppEnum(clause.value) ==>
      && r.Some?
      && |r.value| == |clause.value| + 1
      && r.value[|clause.value|] == AppEnumEntry
      && forall i :: 0 <= i < |clause.value| ==> r.value[i].ty == clause.value[i].ty
  {
    if clause.Some? && !DeclaresAppEnum(clause.value) then
      Some(seq(|clause.value|, i requires 0 <= i < |clause.value| => NormalizeEntryFixed(clause.value[i])) + [AppEnumEntry])
    else clause
  }

  /** With the correction every original entry is comma-terminated and `AppEnum`
      ends the clause, so the clause is well separated. */
  lemma FixedRewriteIsSeparated(clause: seq<InheritedType>)
    requires !DeclaresAppEnum(clause)
    ensures Separated(RewriteInheritanceFixed(Some(clause)).value)
  {
    var r := RewriteInheritanceFixed(Some(clause)).value;
    forall i | 0 <= i < |r| ensures r[i].hasTrailingComma <==> i < |r| - 1 {
      if i < |clause| {
        assert r[i] == NormalizeEntryFixed(clause[i]);
      }
    }
  }

  /** With the correction a clause that did not conform ends with exactly one
      `AppEnum` conformance, the appended last entry. */
  lemma FixedRewriteConformsOnce(clause: seq<InheritedType>)
    requires !DeclaresAppEnum(clause)
    ensures var r := RewriteInheritanceFixed(Some(clause)).value;
      && ConformsToAppEnum(r[|r| - 1])
      && forall i :: 0 <= i < |r| - 1 ==> !ConformsToAppEnum(r[i])
  {
    var r := RewriteInheritanceFixed(Some(clause)).value;
    forall i | 0 <= i < |r| - 1 ensures !ConformsToAppEnum(r[i]) {
      assert r[i].ty == clause[i].ty;
      assert !ConformsToAppEnum(clause[i]);
    }
  }

  // ---------------------------------------------------------------------------
  // Members

  /** The members that are case declarations, in order (the `filter` of the source). */
  function KeepCases(members: seq<MemberItem>): (r: seq<MemberItem>)
    ensures |r| <= |members|
    ensures forall i :: 0 <= i < |r| ==> r[i].decl.CaseDecl?
  {
    if |members| == 0 then []
    else if members[0].decl.CaseDecl? then [members[0]] + KeepCases(members[1..])
    else KeepCases(members[1..])
  }

  /** Every case declaration is kept as often as it occurs, and nothing else is kept. */
  lemma {:induction false} KeepCasesCounts(members: seq<MemberItem>)
    ensures forall m :: multiset(KeepCases(members))[m] == if m.decl.CaseDecl? then multiset(members)[m] else 0
    decreases |members|
  {
    if |members| > 0 {
      KeepCasesCounts(members[1..]);
      assert members == [members[0]] + members[1..];
    }
  }

  /** `a` is obtained from `b` by deleting elements. */
  predicate IsSubsequence<T(==)>(a: seq<T>, b: seq<T>)
    decreases |b|
  {
    if |a| == 0 then true
    else if |b| == 0 then false
    else if a[0] == b[0] then IsSubsequence(a[1..], b[1..])
    else IsSubsequence(a, b[1..])
  }

  /** The kept members appear in their original order. */
  lemma {:induction false} KeepCasesIsSubsequence(members: seq<MemberItem>)
    ensures IsSubsequence(KeepCases(members), members)
    decreases |members|
  {
    if |members| > 0 {
      KeepCasesIsSubsequence(members[1..]);
      var r := KeepCases(members);
      if members[0].decl.CaseDecl? {
        assert r[0] == members[0] && r[1..] == KeepCases(members[1..]);
      }
    }
  }

  /** The kept members carry exactly the case declarations case extraction sees. */
  lemma {:induction false} KeepCasesMatchesCaseDecls(members: seq<MemberItem>)
    ensures CaseDecls(KeepCases(members)) == CaseDecls(members)
    decreases |members|
  {
    if |members| > 0 {
      KeepCasesMatchesCaseDecls(members[1..]);
      if members[0].decl.CaseDecl? {
        var r := KeepCases(members);
        assert r[0] == members[0] && r[1..] == KeepCases(members[1..]);
      }
    }
  }

  /** Extracting the case declarations is filtering the case members and taking
      each one's elements: one element list per kept member, in the same order. */
  lemma {:induction false} CaseDeclsAreKeptElements(members: seq<MemberItem>)
    ensures |CaseDecls(members)| == |KeepCases(members)|
    ensures forall i :: 0 <= i < |KeepCases(members)| ==> CaseDecls(members)[i] == KeepCases(members)[i].decl.elements
    decreases |members|
  {
    if |members| > 0 {
      CaseDeclsAreKeptElements(members[1..]);
    }
  }

  lemma {:induction false} KeepCasesAppend(a: seq<MemberItem>, b: seq<MemberItem>)
    ensures KeepCases(a + b) == KeepCases(a) + KeepCases(b)
    decreases |a|
  {
    if |a| == 0 {
      assert a + b == b;
    } else {
      assert (a + b)[1..] == a[1..] + b;
      KeepCasesAppend(a[1..], b);
    }
  }

  lemma {:induction false} KeepCasesOfCases(members: seq<MemberItem>)
    requires forall i :: 0 <= i < |members| ==> members[i].decl.CaseDecl?
    ensures KeepCases(members) == members
    decreases |members|
  {
    if |members| > 0 {
      KeepCasesOfCases(members[1..]);
      assert members == [members[0]] + members[1..];
    }
  }

  /** The two generated members, each preceded by two newlines. */
  function GeneratedMembers(enumName: string, members: seq<MemberItem>): (r: seq<MemberItem>)
    ensures |r| == 2
    ensures forall i :: 0 <= i < |r| ==> r[i].leading == [Newlines(2)] && r[i].decl.StaticVar?
    ensures r[0].decl.v == TypeLabel(enumName) && r[1].decl.v == CaseMapping(enumName, members)
  {
    [MemberItem([Newlines(2)], StaticVar(TypeLabel(enumName))),
     MemberItem([Newlines(2)], StaticVar(CaseMapping(enumName, members)))]
  }

  /** The copy's member list: the case declarations, then the type label, then
      the case mapping. */
  function EditedMembers(members: seq<MemberItem>, enumName: string): (r: seq<MemberItem>)
    ensures |r| == |KeepCases(members)| + 2
    ensures r[..|r| - 2] == KeepCases(members)
    ensures r[|r| - 2] == MemberItem([Newlines(2)], StaticVar(TypeLabel(enumName)))
    ensures r[|r| - 1] == MemberItem([Newlines(2)], StaticVar(CaseMapping(enumName, members)))
  {
    KeepCases(members) + GeneratedMembers(enumName, members)
  }

  /** The edit keeps every case declaration. */
  lemma EditedMembersKeepCases(members: seq<MemberItem>, enumName: string)
    ensures CaseDecls(EditedMembers(members, enumName)) == CaseDecls(members)
  {
    var g := GeneratedMembers(enumName, members);
    CaseDeclsAppend(KeepCases(members), g);
    KeepCasesMatchesCaseDecls(members);
    assert CaseDecls(g) == [] by {
      NoCasesNoDecls(g);
    }
  }

  /** Editing the edited member list again gives the same list: stale generated
      members are dropped and regenerated identically. */
  lemma EditedMembersIdempotent(members: seq<MemberItem>, enumName: string)
    ensures EditedMembers(EditedMembers(members, enumName), enumName) == EditedMembers(members, enumName)
  {
    var kept := KeepCases(members);
    var g := GeneratedMembers(enumName, members);
    var once := EditedMembers(members, enumName);
    KeepCasesAppend(kept, g);
    KeepCasesOfCases(kept);
    assert KeepCases(g) == [] by {
      assert !g[0].decl.CaseDecl? && !g[1].decl.CaseDecl?;
      assert g[1..][1..] == [];
    }
    assert KeepCases(once) == kept;
    EditedMembersKeepCases(members, enumName);
    assert CaseMapping(enumName, once) == CaseMapping(enumName, members);
  }

  // ---------------------------------------------------------------------------
  // The edited copy

  /** The fix-it's replacement for an enum declaration: the attribute edit, the
      inheritance rewrite, then the member edit, on a copy of the original. */
  function EditedCopy(d: Decl): (r: Result<Decl, DiagKind>)
    requires d.EnumDecl?
    ensures r.Success? && r.value.EnumDecl?
    ensures r.value.name == d.name && r.value.modifiers == d.modifiers
    ensures r.value.attributes == CommentOutAttributes(d.attributes)
    ensures RewriteInheritance(d.inheritance) == Success(r.value.inheritance)
    ensures r.value.members == EditedMembers(d.members, d.name)
  {
    var copy := d.(attributes := CommentOutAttributes(d.attributes));
    match RewriteInheritance(copy.inheritance)
    case Failure(k) => Failure(k)
    case Success(inheritance) =>
      Success(copy.(inheritance := inheritance, members := EditedMembers(d.members, d.name)))
  }

  /** What the copy conforms to: `AppEnum` whenever there was a clause, and no
      clause is ever created when there was none. */
  lemma EditedCopyConformance(d: Decl)
    requires d.EnumDecl?
    ensures EditedCopy(d).value.inheritance.Some? <==> d.inheritance.Some?
    ensures d.inheritance.Some? ==> HasAppEnum(EditedCopy(d).value.inheritance.value)
  {
    var r := EditedCopy(d).value;
    RewriteAppEnumCount(d.inheritance);
    if d.inheritance.Some? {
      AppEnumCountPositive(r.inheritance.value);
      AppEnumCountPositive(d.inheritance.value);
    }
  }

  /** Applying the fix-it edit to its own result changes nothing. */
  lemma EditedCopyIdempotent(d: Decl)
    requires d.EnumDecl?
    ensures EditedCopy(EditedCopy(d).value) == EditedCopy(d)
  {
    var once := EditedCopy(d).value;
    CommentOutIdempotent(d.attributes);
    EditedMembersIdempotent(d.members, d.name);
    EditedCopyConformance(d);
    assert RewriteInheritance(once.inheritance).value == once.inheritance;
  }
}

=== FILE: macros.dfy ===
/** The two attached extension macros.  Each expansion is a pure function from
    the triggering attribute and the attached declaration to the extensions it
    returns and the diagnostics it reports. */
module Macros {
  import opened Wrappers
  import opened Syntax
  import opened Diagnostics
  import opened Synthesis
  import opened FixItEdit

  /** A generated `extension <extendedType>: <conformances> { <members> }`. */
  datatype ExtensionDecl = ExtensionDecl(extendedType: string, conformances: seq<string>, members: seq<GeneratedVar>)

  /** The outcome of one expansion: the returned extensions and, in order, the
      diagnostics passed to the context. */
  datatype Expansion = Expansion(extensions: seq<ExtensionDecl>, diagnostics: seq<Diagnostic>)

  /** `@AppEnumGen`: an extension conforming the enum to `AppEnum` that holds the
      type label and the case mapping; an error on anything but an enum. */
  function AppEnumGen(node: Attribute, declaration: Decl): (r: Expansion)
    ensures |r.extensions| + |r.diagnostics| == 1
    ensures r.extensions == [] <==> !declaration.EnumDecl?
    ensures !declaration.EnumDecl? ==>
      r.diagnostics[0].node == node && r.diagnostics[0].message == NotAnEnum
      && r.diagnostics[0].fixIt.None? && SeverityOf(r.diagnostics[0].message) == Error
    ensures declaration.EnumDecl? ==>
      var ext := r.extensions[0];
      && ext.extendedType == declaration.name
      && ext.conformances == [AppEnum]
      && |ext.members| == 2
      && ext.members[0] == TypeDisplayRepresentation(declaration.name)
      && ext.members[1].CaseDisplayRepresentations?
      && ext.members[1].keyType == declaration.name
  {
    if !declaration.EnumDecl? then
      Expansion([], [Diagnostic(node, NotAnEnum, None)])
    else
      var enumName := declaration.name;
      var ext := ExtensionDecl(enumName, [AppEnum], [TypeLabel(enumName), CaseMapping(enumName, declaration.members)]);
      Expansion([ext], [])
  }

  /** The case names of an enum whose mapping text can be read back. */
  predicate RenderableCases(d: Decl)
    requires d.EnumDecl?
  {
    forall i :: 0 <= i < |CaseDecls(d.members)| ==> Renderable(CaseDecls(d.members)[i])
  }

  /** The mapping `@AppEnumGen` generates reads back as exactly the enum's case
      names, each mapped to its own spelling, in source order and grouped by
      case declaration. */
  lemma AppEnumGenMapping(node: Attribute, d: Decl)
    requires d.EnumDecl? && RenderableCases(d)
    ensures ParseMapping(AppEnumGen(node, d).extensions[0].members[1].dictLines) ==
      Some(ExpectedEntries(CaseDecls(d.members)))
  {
    CaseMappingReadsBack(d.name, d.members);
  }

  /** The generated extension does not depend on the enum's attributes,
      modifiers or inheritance clause, so an enum that already declares
      `AppEnum` gets the same extension. */
  lemma AppEnumGenIgnoresHeader(node: Attribute, d: Decl, e: Decl)
    requires d.EnumDecl? && e.EnumDecl?
    requires d.name == e.name && d.members == e.members
    ensures AppEnumGen(node, d) == AppEnumGen(node, e)
  {
  }

  /** `@AppEnumGenFixIt`: no extension ever; on an enum one warning whose fix-it
      replaces the whole declaration by the edited copy, otherwise one error. */
  function AppEnumGenFixIt(node: Attribute, declaration: Decl): (r: Expansion)
    ensures r.extensions == []
    ensures |r.diagnostics| == 1 && r.diagnostics[0].node == node
    ensures r.diagnostics[0].message != UpdatedInheritancesIsNil
    ensures SeverityOf(r.diagnostics[0].message) == Warning <==> declaration.EnumDecl?
    ensures r.diagnostics[0].fixIt.Some? <==> declaration.EnumDecl?
    ensures declaration.EnumDecl? ==>
      && r.diagnostics[0].message == ReplaceEnum
      && r.diagnostics[0].fixIt.value.id == FixItId
      && r.diagnostics[0].fixIt.value.changes == [Replace(declaration, EditedCopy(declaration).value)]
  {
    if !declaration.EnumDecl? then
      Expansion([], [Diagnostic(node, NotAnEnum, None)])
    else
      match EditedCopy(declaration)
      case Failure(k) => Expansion([], [Diagnostic(node, k, None)])
      case Success(copy) =>
        var change := Replace(declaration, copy);
        Expansion([], [Diagnostic(node, ReplaceEnum, Some(FixIt(FixItId, [change])))])
  }

  /** The replacement the fix-it suggests for an enum. */
  function SuggestedReplacement(node: Attribute, d: Decl): (r: Decl)
    requires d.EnumDecl?
    ensures r.EnumDecl? && r.name == d.name
  {
    AppEnumGenFixIt(node, d).diagnostics[0].fixIt.value.changes[0].newNode
  }

  /** The suggested replacement keeps the original case declarations, in order,
      and then holds exactly the two generated members, the same ones
      `@AppEnumGen` puts in its extension. */
  lemma FixItMembersMatchExtension(node: Attribute, d: Decl)
    requires d.EnumDecl?
    ensures var members := SuggestedReplacement(node, d).members;
      && |members| == |KeepCases(d.members)| + 2
      && IsSubsequence(members[..|members| - 2], d.members)
      && CaseDecls(members) == CaseDecls(d.members)
      && members[|members| - 2].decl.v == AppEnumGen(node, d).extensions[0].members[0]
      && members[|members| - 1].decl.v == AppEnumGen(node, d).extensions[0].members[1]
  {
    KeepCasesIsSubsequence(d.members);
    EditedMembersKeepCases(d.members, d.name);
  }

  /** Expanding again on the suggested node, as it is, suggests the same declaration. */
  lemma FixItIdempotent(node: Attribute, d: Decl)
    requires d.EnumDecl?
    ensures SuggestedReplacement(node, SuggestedReplacement(node, d)) == SuggestedReplacement(node, d)
  {
    EditedCopyIdempotent(d);
  }

  /** The refresh cycle the macro is documented for: uncommenting the attribute
      of an accepted suggestion and expanding again suggests that same
      declaration, so a refresh without source changes changes nothing. The
      cycle only fires again when the macro's attribute was the first one; see
      `RefreshRestoresTriggerOnlyWhenFirst`. */
  lemma UncommentedIdempotent(node: Attribute, d: Decl)
    requires d.EnumDecl?
    ensures SuggestedReplacement(node, Uncomment(SuggestedReplacement(node, d))) == SuggestedReplacement(node, d)
  {
    var s := SuggestedReplacement(node, d);
    var u := Uncomment(s);
    EditedCopyConformance(d);
    EditedMembersIdempotent(d.members, d.name);
    CommentOutIdempotent(d.attributes);
    assert CommentOutAttributes(u.attributes) == s.attributes;
    assert RewriteInheritance(u.inheritance).value == u.inheritance;
  }

  /** Uncommenting an accepted suggestion brings back the live trigger exactly
      when the original's first attribute was the trigger (same name and
      arguments); with another attribute first, that one comes back instead and
      the fix-it macro does not expand again. */
  lemma RefreshRestoresTriggerOnlyWhenFirst(node: Attribute, d: Decl)
    requires d.EnumDecl? && node.atSign == AtSign
    requires |d.attributes| > 0 && d.attributes[0].Attr?
    ensures Uncomment(SuggestedReplacement(node, d)).attributes
      == [Attr(d.attributes[0].attribute.(atSign := AtSign))]
    ensures Attr(node) in Uncomment(SuggestedReplacement(node, d)).attributes <==>
      d.attributes[0].attribute.name == node.name && d.attributes[0].attribute.arguments == node.arguments
  {
  }

  /** On anything but an enum both macros return nothing and report the same
      single error at the attribute. */
  lemma NonEnumRejected(node: Attribute, d: Decl)
    requires !d.EnumDecl?
    ensures AppEnumGen(node, d) == AppEnumGenFixIt(node, d)
    ensures AppEnumGen(node, d) == Expansion([], [Diagnostic(node, NotAnEnum, None)])
  {
  }
}

=== FILE: scenarios.dfy ===
/** The repository's expansion scenarios, stated on concrete declarations:
    `enum A: String { case a, b; case c }` under both macros. */
module Scenarios {
  import opened Wrappers
  import opened Syntax
  import opened Diagnostics
  import opened Synthesis
  import opened FixItEdit
  import opened Macros

  const CaseAB: MemberItem := MemberItem([], CaseDecl([CaseElement("a", ""), CaseElement("b", "")]))
  const CaseC: MemberItem := MemberItem([], CaseDecl([CaseElement("c", "")]))

  /** The dictionary text both expansions generate for `A`. */
  const ExpectedDictLines: string := ".a: \"a\", .b: \"b\",\n.c: \"c\""

  function EnumA(attribute: Attribute, inheritance: seq<InheritedType>, extra: seq<MemberItem>): Decl
  {
    EnumDecl([Attr(attribute)], [], "A", Some(inheritance), [CaseAB, CaseC] + extra)
  }

  lemma LineTextsOfA()
    ensures LineText(CaseAB.decl.elements) == ".a: \"a\", .b: \"b\""
    ensures LineText(CaseC.decl.elements) == ".c: \"c\""
  {
    var ab := CaseAB.decl.elements;
    LineTextCons(ab);
    assert ab[1..] == [CaseElement("b", "")];
    LineTextCons(ab[1..]);
    assert EntryText("a") == ".a: \"a\"";
    assert EntryText("b") == ".b: \"b\"";
    LineTextCons(CaseC.decl.elements);
    assert EntryText("c") == ".c: \"c\"";
  }

  /** The case declarations of `A`, whatever non-case members follow them. */
  const CasesOfA: seq<seq<CaseElement>> := [CaseAB.decl.elements, CaseC.decl.elements]

  lemma CaseDeclsOfA(extra: seq<MemberItem>)
    requires forall i :: 0 <= i < |extra| ==> !extra[i].decl.CaseDecl?
    ensures CaseDecls([CaseAB, CaseC] + extra) == CasesOfA
  {
    CaseDeclsAppend([CaseAB, CaseC], extra);
    NoCasesNoDecls(extra);
    assert [CaseAB, CaseC][1..] == [CaseC];
    assert [CaseC][1..] == [];
  }

  lemma DictLinesOfCasesA()
    ensures DictLines(CasesOfA) == ExpectedDictLines
  {
    DictLinesCons(CasesOfA);
    assert CasesOfA[1..] == [CaseC.decl.elements];
    DictLinesCons(CasesOfA[1..]);
    LineTextsOfA();
  }

  lemma DictLinesOfA(extra: seq<MemberItem>)
    requires forall i :: 0 <= i < |extra| ==> !extra[i].decl.CaseDecl?
    ensures DictLines(CaseDecls([CaseAB, CaseC] + extra)) == ExpectedDictLines
  {
    CaseDeclsOfA(extra);
    DictLinesOfCasesA();
  }

  /** `@AppEnumGen` on `enum A: String` (and on `enum A: String, AppEnum`):
      `extension A: AppEnum` with the label "A" and `.a`, `.b` on one line, `.c` on the next. */
  lemma AppEnumGenOnA(node: Attribute, inheritance: seq<InheritedType>)
    ensures AppEnumGen(node, EnumA(node, inheritance, [])) ==
      Expansion([ExtensionDecl("A", ["AppEnum"], [
        TypeDisplayRepresentation("A"),
        CaseDisplayRepresentations("A", ExpectedDictLines)])], [])
  {
    assert [CaseAB, CaseC] + [] == [CaseAB, CaseC];
    DictLinesOfA([]);
  }

  const FixItNode: Attribute := Attribute("@", "AppEnumGenFixIt", "")

  /** Members a previous application of the fix-it left behind. */
  const StaleMembers: seq<MemberItem> := [
    MemberItem([Newlines(2)], StaticVar(TypeDisplayRepresentation("A"))),
    MemberItem([Newlines(2)], StaticVar(CaseDisplayRepresentations("A", ExpectedDictLines)))]

  /** `String, AppEnu`: a clause that does not yet name `AppEnum`. */
  const InheritanceA: seq<InheritedType> := [
    InheritedType(IdentifierType("String"), true),
    InheritedType(IdentifierType("AppEnu"), false)]

  lemma RewriteOfA()
    ensures RewriteInheritance(Some(InheritanceA)) == Success(Some([
      InheritedType(IdentifierType("String"), true),
      InheritedType(IdentifierType("AppEnu"), true),
      InheritedType(IdentifierType("AppEnum"), false)]))
  {
    assert !IsAppEnumEntry(InheritanceA[0]) && !IsAppEnumEntry(InheritanceA[1]);
    assert !HasAppEnum(InheritanceA);
    var r := RewriteInheritance(Some(InheritanceA)).value.value;
    assert r[0] == NormalizeEntry(InheritanceA[0]) == InheritanceA[0];
    assert r[1] == NormalizeEntry(InheritanceA[1]) == InheritanceA[1].(hasTrailingComma := true);
    assert |r| == 3 && r[2] == AppEnumEntry;
    assert r == [r[0], r[1], r[2]];
  }

  lemma KeptMembersOfA()
    ensures KeepCases([CaseAB, CaseC] + StaleMembers) == [CaseAB, CaseC]
  {
    KeepCasesAppend([CaseAB, CaseC], StaleMembers);
    KeepCasesOfCases([CaseAB, CaseC]);
    assert KeepCases(StaleMembers) == [] by {
      assert StaleMembers[1..][1..] == [];
    }
  }

  lemma MembersOfA()
    ensures EditedMembers([CaseAB, CaseC] + StaleMembers, "A") == [
      CaseAB, CaseC,
      MemberItem([Newlines(2)], StaticVar(TypeDisplayRepresentation("A"))),
      MemberItem([Newlines(2)], StaticVar(CaseDisplayRepresentations("A", ExpectedDictLines)))]
  {
    var members := [CaseAB, CaseC] + StaleMembers;
    DictLinesOfA(StaleMembers);
    assert CaseMapping("A", members) == CaseDisplayRepresentations("A", ExpectedDictLines);
    KeptMembersOfA();
  }

  /** `@AppEnumGenFixIt` on `enum A: String, AppEnu` holding stale generated
      members: the suggestion comments the attribute out, appends `AppEnum` after
      the now comma-terminated `AppEnu`, keeps the two case lines and
      regenerates the two members. */
  lemma FixItOnA()
    ensures SuggestedReplacement(FixItNode, EnumA(FixItNode, InheritanceA, StaleMembers)) ==
      EnumDecl([Attr(Attribute("//@", "AppEnumGenFixIt", ""))], [], "A",
        Some([InheritedType(IdentifierType("String"), true),
              InheritedType(IdentifierType("AppEnu"), true),
              InheritedType(IdentifierType("AppEnum"), false)]),
        [CaseAB, CaseC,
         MemberItem([Newlines(2)], StaticVar(TypeDisplayRepresentation("A"))),
         MemberItem([Newlines(2)], StaticVar(CaseDisplayRepresentations("A", ExpectedDictLines)))])
  {
    RewriteOfA();
    MembersOfA();
  }
}

=== FILE: syntax.dfy ===
/** The closed fragment of Swift syntax the macros look at.  Nodes are immutable
    values, so every edit produces a new declaration and the original is never
    aliased by the copy. */
module Syntax {
  import opened Wrappers

  /** One piece of leading trivia.  Only the `Newlines(2)` marker that the fix-it
      puts in front of the generated members is significant to the model. */
  datatype TriviaPiece = Newlines(count: nat) | Spaces(count: nat) | LineComment(text: string)

  type Trivia = seq<TriviaPiece>

  /** An attribute such as `@AppEnumGenFixIt`; `atSign` is the text of its first token. */
  datatype Attribute = Attribute(atSign: string, name: string, arguments: string)

  /** An element of an attribute list: an attribute, or an `#if` block of attributes. */
  datatype AttributeElement = Attr(attribute: Attribute) | IfConfig(text: string)

  /** The type written in one inheritance entry. */
  datatype TypeRef =
    | IdentifierType(name: string)
    | OtherType(text: string)  // member types such as `Swift.String`, attributed types, ...

  /** One entry of an inheritance clause, with or without its trailing `,`. */
  datatype InheritedType = InheritedType(ty: TypeRef, hasTrailingComma: bool)

  /** One element of a case declaration; `detail` is its associated-value or raw-value text. */
  datatype CaseElement = CaseElement(name: string, detail: string)

  /** The two static members the macros synthesise.  `CaseDisplayRepresentations`
      keeps its key type and the text of its dictionary literal. */
  datatype GeneratedVar =
    | TypeDisplayRepresentation(typeName: string)
    | CaseDisplayRepresentations(keyType: string, dictLines: string)

  /** A member declaration of an enum: a case declaration (one line, possibly
      several comma-separated elements), a static variable, or anything else. */
  datatype MemberDecl =
    | CaseDecl(elements: seq<CaseElement>)
    | StaticVar(v: GeneratedVar)
    | OtherMember(text: string)

  /** An item of a member block, with the leading trivia of its first token. */
  datatype MemberItem = MemberItem(leading: Trivia, decl: MemberDecl)

  /** The other kinds of declaration group an attached macro can sit on. */
  datatype GroupKind = Struct | Class | Actor | Protocol | Extension

  /** The declaration a macro is attached to.  `name` is the trimmed identifier;
      `inheritance` is `None` when there is no inheritance clause. */
  datatype Decl =
    | EnumDecl(attributes: seq<AttributeElement>, modifiers: seq<string>, name: string,
               inheritance: Option<seq<InheritedType>>, members: seq<MemberItem>)
    | OtherDecl(kind: GroupKind, name: string)
}

=== FILE: synthesis.dfy ===
/** Case extraction and the two synthesised members, shared by both macros:
    the type label, and the `.name: "name"` dictionary text built from the case
    declarations.  A small parser for that text states what it carries. */
module Synthesis {
  import opened Wrappers
  import opened Syntax
  import opened Text

  /** The elements of every case declaration among the members, one entry per
      declaration, in source order; every other member is skipped. */
  function CaseDecls(members: seq<MemberItem>): (r: seq<seq<CaseElement>>)
    ensures |r| <= |members|
  {
    if |members| == 0 then []
    else if members[0].decl.CaseDecl? then [members[0].decl.elements] + CaseDecls(members[1..])
    else CaseDecls(members[1..])
  }

  /** Case extraction distributes over concatenation of member lists. */
  lemma {:induction false} CaseDeclsAppend(a: seq<MemberItem>, b: seq<MemberItem>)
    ensures CaseDecls(a + b) == CaseDecls(a) + CaseDecls(b)
    decreases |a|
  {
    if |a| == 0 {
      assert a + b == b;
    } else {
      assert (a + b)[1..] == a[1..] + b;
      CaseDeclsAppend(a[1..], b);
    }
  }

  /** The dictionary entry for one case element. */
  function EntryText(name: string): string
  {
    "." + name + ": \"" + name + "\""
  }

  function EntryTexts(elements: seq<CaseElement>): seq<string>
  {
    if |elements| == 0 then [] else [EntryText(elements[0].name)] + EntryTexts(elements[1..])
  }

  /** The entries of one case declaration, joined on one line. */
  function LineText(elements: seq<CaseElement>): string
  {
    Join(EntryTexts(elements), ", ")
  }

  function LineTexts(cases: seq<seq<CaseElement>>): seq<string>
  {
    if |cases| == 0 then [] else [LineText(cases[0])] + LineTexts(cases[1..])
  }

  /** The dictionary literal's body: one line per case declaration. */
  function DictLines(cases: seq<seq<CaseElement>>): string
  {
    Join(LineTexts(cases), ",\n")
  }

  /** With no case declarations the dictionary literal is empty. */
  lemma NoCasesNoText(members: seq<MemberItem>)
    requires forall i :: 0 <= i < |members| ==> !members[i].decl.CaseDecl?
    ensures DictLines(CaseDecls(members)) == ""
  {
    NoCasesNoDecls(members);
  }

  lemma {:induction false} NoCasesNoDecls(members: seq<MemberItem>)
    requires forall i :: 0 <= i < |members| ==> !members[i].decl.CaseDecl?
    ensures CaseDecls(members) == []
    decreases |members|
  {
    if |members| > 0 {
      NoCasesNoDecls(members[1..]);
    }
  }

  /** `static var typeDisplayRepresentation: TypeDisplayRepresentation = "<enumName>"`. */
  function TypeLabel(enumName: string): (v: GeneratedVar)
    ensures v.TypeDisplayRepresentation? && v.typeName == enumName
  {
    TypeDisplayRepresentation(enumName)
  }

  /** `static var caseDisplayRepresentations: [<enumName>: DisplayRepresentation] = [ … ]`. */
  function CaseMapping(enumName: string, members: seq<MemberItem>): (v: GeneratedVar)
    ensures v.CaseDisplayRepresentations? && v.keyType == enumName
  {
    CaseDisplayRepresentations(enumName, DictLines(CaseDecls(members)))
  }

  // ---------------------------------------------------------------------------
  // Reading the dictionary text back.

  /** One dictionary entry: the key's case name and the label's text. */
  datatype Entry = Entry(key: string, text: string)

  /** A case name the text can carry unambiguously: every plain Swift identifier
      is one, but a raw identifier (Swift 6.2) holding `:` or `"` is not. */
  predicate ValidName(name: string)
  {
    ':' !in name && '"' !in name
  }

  /** The entries the dictionary should hold: per declaration, per element, `name -> name`. */
  function ExpectedEntries(cases: seq<seq<CaseElement>>): seq<seq<Entry>>
  {
    if |cases| == 0 then [] else [LineEntries(cases[0])] + ExpectedEntries(cases[1..])
  }

  function LineEntries(elements: seq<CaseElement>): seq<Entry>
  {
    if |elements| == 0 then [] else [Entry(elements[0].name, elements[0].name)] + LineEntries(elements[1..])
  }

  /** The longest prefix of `s` without `stop`. */
  function TakeUntil(s: string, stop: char): (r: string)
    ensures |r| <= |s| && r == s[..|r|]
    ensures stop !in r
    ensures |r| < |s| ==> s[|r|] == stop
  {
    if |s| == 0 || s[0] == stop then [] else [s[0]] + TakeUntil(s[1..], stop)
  }

  lemma {:induction false} TakeUntilStop(a: string, stop: char, b: string)
    requires stop !in a
    ensures TakeUntil(a + [stop] + b, stop) == a
    decreases |a|
  {
    var s := a + [stop] + b;
    if |a| == 0 {
      assert s[0] == stop;
    } else {
      assert s[0] == a[0] != stop;
      assert s[1..] == a[1..] + [stop] + b;
      TakeUntilStop(a[1..], stop, b);
      assert [a[0]] + a[1..] == a;
    }
  }

  /** Reads one `.key: "text"` entry; returns it and the unread rest. */
  function ParseEntry(s: string): (r: Option<(Entry, string)>)
    ensures r.Some? ==> |r.value.1| < |s|
  {
    if |s| == 0 || s[0] != '.' then None
    else
      var key := TakeUntil(s[1..], ':');
      var afterKey := s[1 + |key|..];
      if |afterKey| < 3 || afterKey[..3] != ": \"" then None
      else
        var text := TakeUntil(afterKey[3..], '"');
        var afterText := afterKey[3 + |text|..];
        if |afterText| == 0 || afterText[0] != '"' then None
        else Some((Entry(key, text), afterText[1..]))
  }

  /** Reads entries separated by `", "` (same line) or `",\n"` (next line);
      `done` holds finished lines and `line` the entries of the current one. */
  function ParseFrom(s: string, done: seq<seq<Entry>>, line: seq<Entry>): Option<seq<seq<Entry>>>
    decreases |s|
  {
    match ParseEntry(s)
    case None => None
    case Some((e, rest)) =>
      if |rest| == 0 then Some(done + [line + [e]])
      else if |rest| >= 2 && rest[..2] == ", " then ParseFrom(rest[2..], done, line + [e])
      else if |rest| >= 2 && rest[..2] == ",\n" then ParseFrom(rest[2..], done + [line + [e]], [])
      else None
  }

  /** The dictionary text read back as lines of entries; empty text is the
      empty dictionary (`ParseFrom` never reads "", as it holds no entry). */
  function ParseMapping(s: string): Option<seq<seq<Entry>>>
  {
    match ParseFrom(s, [], [])
    case Some(lines) => Some(lines)
    case None => if |s| == 0 then Some([]) else None
  }

  /** The key of a rendered entry is read back up to its `:`. */
  lemma ParseEntryKey(name: string, t: string)
    requires ValidName(name)
    ensures (EntryText(name) + t)[1..] == name + [':'] + (" \"" + name + "\"" + t)
    ensures TakeUntil((EntryText(name) + t)[1..], ':') == name
  {
    assert (EntryText(name) + t)[1..] == name + [':'] + (" \"" + name + "\"" + t);
    TakeUntilStop(name, ':', " \"" + name + "\"" + t);
  }

  /** The label text of a rendered entry is read back up to its closing quote. */
  lemma ParseEntryLabel(name: string, t: string)
    requires ValidName(name)
    ensures (EntryText(name) + t)[1 + |name|..] == ": \"" + name + "\"" + t
    ensures TakeUntil((": \"" + name + "\"" + t)[3..], '"') == name
    ensures (": \"" + name + "\"" + t)[3 + |name|..] == "\"" + t
  {
    assert (EntryText(name) + t)[1 + |name|..] == ": \"" + name + "\"" + t;
    assert (": \"" + name + "\"" + t)[3..] == name + ['"'] + t;
    TakeUntilStop(name, '"', t);
  }

  /** A rendered entry is read back as `name -> name`, leaving what follows it. */
  lemma ParseEntryText(name: string, t: string)
    requires ValidName(name)
    ensures ParseEntry(EntryText(name) + t) == Some((Entry(name, name), t))
  {
    ParseEntryKey(name, t);
    ParseEntryLabel(name, t);
    var afterKey := ": \"" + name + "\"" + t;
    assert afterKey[..3] == ": \"";
    assert ("\"" + t)[1..] == t;
  }

  /** A case name as its token carries it: the identifier text and the trivia
      that follows it up to the next token (one space in `case small = "S"`). */
  datatype NameToken = NameToken(text: string, trailingTrivia: string)

  /** As written, interpolating the name token prints its trailing trivia too,
      in the key and in the label. */
  function EntryTextAsWritten(name: NameToken): string
  {
    EntryText(name.text + name.trailingTrivia)
  }

  /** As written, a name followed by trivia reads back with that trivia in its
      label, so the label no longer spells the case. */
  lemma AsWrittenLabelCarriesTrivia(name: NameToken)
    requires ValidName(name.text + name.trailingTrivia) && |name.trailingTrivia| > 0
    ensures ParseEntry(EntryTextAsWritten(name)).Some?
    ensures ParseEntry(EntryTextAsWritten(name)).value.0.text != name.text
  {
    var spelled := name.text + name.trailingTrivia;
    ParseEntryText(spelled, "");
    assert EntryText(spelled) + "" == EntryText(spelled);
    assert |spelled| > |name.text|;
  }

  /** The concrete case: `case small = "S"` gives the entry `.small : "small "`. */
  lemma AsWrittenSpacedCaseExample()
    ensures EntryTextAsWritten(NameToken("small", " ")) == ".small : \"small \""
  {
  }

  /** The text of a declaration with several elements is its first entry, `", "`, then the rest. */
  lemma LineTextCons(elements: seq<CaseElement>)
    requires |elements| > 0
    ensures |elements| == 1 ==> LineText(elements) == EntryText(elements[0].name)
    ensures |elements| > 1 ==> LineText(elements) == EntryText(elements[0].name) + ", " + LineText(elements[1..])
  {
    assert EntryTexts(elements)[1..] == EntryTexts(elements[1..]);
    if |elements| == 1 {
      assert elements[1..] == [];
    }
  }

  /** The dictionary text of several declarations is the first line, `",\n"`, then the rest. */
  lemma DictLinesCons(cases: seq<seq<CaseElement>>)
    requires |cases| > 0
    ensures |cases| == 1 ==> DictLines(cases) == LineText(cases[0])
    ensures |cases| > 1 ==> DictLines(cases) == LineText(cases[0]) + ",\n" + DictLines(cases[1..])
  {
    assert LineTexts(cases)[1..] == LineTexts(cases[1..]);
    if |cases| == 1 {
      assert cases[1..] == [];
    }
  }

  /** After an entry followed by `", "` the next entry joins the current line. */
  lemma ParseEntrySameLine(name: string, tail: string, done: seq<seq<Entry>>, line: seq<Entry>)
    requires ValidName(name)
    ensures ParseFrom(EntryText(name) + (", " + tail), done, line) == ParseFrom(tail, done, line + [Entry(name, name)])
  {
    ParseEntryText(name, ", " + tail);
    assert (", " + tail)[..2] == ", ";
    assert (", " + tail)[2..] == tail;
  }

  /** After an entry followed by `",\n"` the current line is closed. */
  lemma ParseEntryNextLine(name: string, tail: string, done: seq<seq<Entry>>, line: seq<Entry>)
    requires ValidName(name)
    ensures ParseFrom(EntryText(name) + (",\n" + tail), done, line) == ParseFrom(tail, done + [line + [Entry(name, name)]], [])
  {
    ParseEntryText(name, ",\n" + tail);
    assert (",\n" + tail)[..2] == ",\n";
    assert (",\n" + tail)[..2] != ", " by {
      assert (",\n" + tail)[..2][1] == '\n';
    }
    assert (",\n" + tail)[2..] == tail;
  }

  /** An entry at the end of the text closes the last line. */
  lemma ParseEntryEnd(name: string, done: seq<seq<Entry>>, line: seq<Entry>)
    requires ValidName(name)
    ensures ParseFrom(EntryText(name), done, line) == Some(done + [line + [Entry(name, name)]])
  {
    assert EntryText(name) + "" == EntryText(name);
    ParseEntryText(name, "");
  }

  /** Reading one declaration's line followed by `",\n"`: its entries join the
      current line, which is then closed. */
  lemma {:induction false} ParseLineThenNext(elements: seq<CaseElement>, tail: string, done: seq<seq<Entry>>, line: seq<Entry>)
    requires Renderable(elements)
    ensures ParseFrom(LineText(elements) + (",\n" + tail), done, line) ==
            ParseFrom(tail, done + [line + LineEntries(elements)], [])
    decreases |elements|
  {
    var n := elements[0].name;
    var e := Entry(n, n);
    assert ValidName(n);
    LineTextCons(elements);
    assert LineEntries(elements) == [e] + LineEntries(elements[1..]);
    if |elements| == 1 {
      assert LineEntries(elements) == [e];
      ParseEntryNextLine(n, tail, done, line);
    } else {
      var rest := LineText(elements[1..]);
      assert LineText(elements) + (",\n" + tail) == EntryText(n) + (", " + (rest + (",\n" + tail)));
      ParseEntrySameLine(n, rest + (",\n" + tail), done, line);
      ParseLineThenNext(elements[1..], tail, done, line + [e]);
      assert line + [e] + LineEntries(elements[1..]) == line + LineEntries(elements);
    }
  }

  /** Reading the last declaration's line: its entries join the current line,
      which ends the result. */
  lemma {:induction false} ParseLineAtEnd(elements: seq<CaseElement>, done: seq<seq<Entry>>, line: seq<Entry>)
    requires Renderable(elements)
    ensures ParseFrom(LineText(elements), done, line) == Some(done + [line + LineEntries(elements)])
    decreases |elements|
  {
    var n := elements[0].name;
    var e := Entry(n, n);
    assert ValidName(n);
    LineTextCons(elements);
    assert LineEntries(elements) == [e] + LineEntries(elements[1..]);
    if |elements| == 1 {
      assert LineEntries(elements) == [e];
      ParseEntryEnd(n, done, line);
    } else {
      assert LineText(elements) == EntryText(n) + (", " + LineText(elements[1..]));
      ParseEntrySameLine(n, LineText(elements[1..]), done, line);
      ParseLineAtEnd(elements[1..], done, line + [e]);
      assert line + [e] + LineEntries(elements[1..]) == line + LineEntries(elements);
    }
  }

  /** A declaration whose line can be rendered and read back. */
  predicate Renderable(elements: seq<CaseElement>)
  {
    |elements| > 0 && forall j :: 0 <= j < |elements| ==> ValidName(elements[j].name)
  }

  /** Reading the text of several declarations: the first one's line is closed,
      then the rest is read. */
  lemma ParseFirstLine(cases: seq<seq<CaseElement>>, done: seq<seq<Entry>>)
    requires |cases| > 1 && Renderable(cases[0])
    ensures ParseFrom(DictLines(cases), done, []) == ParseFrom(DictLines(cases[1..]), done + [LineEntries(cases[0])], [])
  {
    DictLinesCons(cases);
    assert DictLines(cases) == LineText(cases[0]) + (",\n" + DictLines(cases[1..]));
    ParseLineThenNext(cases[0], DictLines(cases[1..]), done, []);
    assert [] + LineEntries(cases[0]) == LineEntries(cases[0]);
  }

  /** Reading the text of a single declaration. */
  lemma ParseOnlyLine(cases: seq<seq<CaseElement>>, done: seq<seq<Entry>>)
    requires |cases| == 1 && Renderable(cases[0])
    ensures ParseFrom(DictLines(cases), done, []) == Some(done + ExpectedEntries(cases))
  {
    DictLinesCons(cases);
    ParseLineAtEnd(cases[0], done, []);
    assert [] + LineEntries(cases[0]) == LineEntries(cases[0]);
    assert cases[1..] == [];
    assert ExpectedEntries(cases[1..]) == [];
    assert ExpectedEntries(cases) == [LineEntries(cases[0])];
  }

  lemma {:induction false} ParseLines(cases: seq<seq<CaseElement>>, done: seq<seq<Entry>>)
    requires |cases| > 0
    requires forall i :: 0 <= i < |cases| ==> Renderable(cases[i])
    ensures ParseFrom(DictLines(cases), done, []) == Some(done + ExpectedEntries(cases))
    decreases |cases|
  {
    if |cases| == 1 {
      ParseOnlyLine(cases, done);
    } else {
      var first := LineEntries(cases[0]);
      ParseFirstLine(cases, done);
      ParseLines(cases[1..], done + [first]);
      assert ExpectedEntries(cases) == [first] + ExpectedEntries(cases[1..]);
      assert done + [first] + ExpectedEntries(cases[1..]) == done + ExpectedEntries(cases);
    }
  }

  /** The dictionary text carries exactly the case names, in source order and
      grouped by declaration, each as key and as label text. */
  lemma MappingRoundTrip(cases: seq<seq<CaseElement>>)
    requires forall i :: 0 <= i < |cases| ==> Renderable(cases[i])
    ensures ParseMapping(DictLines(cases)) == Some(ExpectedEntries(cases))
  {
    if |cases| == 0 {
      assert DictLines(cases) == "";
      assert ExpectedEntries(cases) == [];
    } else {
      ParseNonEmptyMapping(cases);
    }
  }

  lemma ParseNonEmptyMapping(cases: seq<seq<CaseElement>>)
    requires |cases| > 0
    requires forall i :: 0 <= i < |cases| ==> Renderable(cases[i])
    ensures ParseMapping(DictLines(cases)) == Some(ExpectedEntries(cases))
  {
    ParseLines(cases, []);
    ReadsBackFromStart(DictLines(cases), ExpectedEntries(cases));
  }

  /** Text whose entries are read from its start reads back as those entries. */
  lemma ReadsBackFromStart(s: string, lines: seq<seq<Entry>>)
    requires ParseFrom(s, [], []) == Some([] + lines)
    ensures ParseMapping(s) == Some(lines)
  {
    assert [] + lines == lines;
  }

  /** The line of one case declaration carries exactly its element names, in
      order, each as key and as label text. */
  lemma LineReadsBack(elements: seq<CaseElement>)
    requires Renderable(elements)
    ensures ParseMapping(LineText(elements)) == Some([LineEntries(elements)])
  {
    ParseLineAtEnd(elements, [], []);
    assert [] + LineEntries(elements) == LineEntries(elements);
    assert [] + [LineEntries(elements)] == [LineEntries(elements)];
  }

  /** The generated `caseDisplayRepresentations` member carries exactly the
      enum's case names, in source order and grouped by declaration. */
  lemma CaseMappingReadsBack(enumName: string, members: seq<MemberItem>)
    requires forall i :: 0 <= i < |CaseDecls(members)| ==> Renderable(CaseDecls(members)[i])
    ensures ParseMapping(CaseMapping(enumName, members).dictLines) == Some(ExpectedEntries(CaseDecls(members)))
  {
    MappingRoundTrip(CaseDecls(members));
  }
}

=== FILE: text.dfy ===
/** String joining as Swift's `[String].joined(separator:)` does it. */
module Text {

  /** The parts in order with `sep` between neighbours; no parts give "". */
  function Join(parts: seq<string>, sep: string): string
  {
    if |parts| == 0 then ""
    else if |parts| == 1 then parts[0]
    else parts[0] + sep + Join(parts[1..], sep)
  }

  /** The summed length of the parts. */
  function TotalLength(parts: seq<string>): nat
  {
    if |parts| == 0 then 0 else |parts[0]| + TotalLength(parts[1..])
  }

  /** Joining adds exactly one separator between each pair of neighbours and nothing else. */
  lemma {:induction false} JoinLength(parts: seq<string>, sep: string)
    requires |parts| > 0
    ensures |Join(parts, sep)| == TotalLength(parts) + (|parts| - 1) * |sep|
    decreases |parts|
  {
    if |parts| > 1 {
      JoinLength(parts[1..], sep);
    } else {
      assert parts[1..] == [];
    }
  }

  /** Joining one more part appends the separator and that part, which is how
      the joined text grows from the back. */
  lemma {:induction false} JoinSnoc(parts: seq<string>, p: string, sep: string)
    requires |parts| > 0
    ensures Join(parts + [p], sep) == Join(parts, sep) + sep + p
    decreases |parts|
  {
    if |parts| == 1 {
      assert (parts + [p])[1..] == [p];
    } else {
      assert (parts + [p])[1..] == parts[1..] + [p];
      JoinSnoc(parts[1..], p, sep);
    }
  }
}

=== FILE: wrappers.dfy ===
/** Failure-compatible wrappers used by the expansion model: `Option` for Swift
    optionals and `Result` for an expansion step that can end in a diagnostic. */
module Wrappers {

  datatype Option<+T> = None | Some(value: T)

  datatype Result<+T, +E> = Success(value: T) | Failure(error: E)
}
